=== FILE: README.md ===
# LinkedIn content-feed scraper: a verified model of its string and counting rules

`scrapeLIContentFeed.py` logs into LinkedIn with a headless Edge browser, searches the
content feed for the keywords given on the command line, scrolls the result page a
configurable number of times, extracts author, description, age and text of every
result post, appends each post as a text block to a dated file and mails that file.

Almost all of that is browser, file and mail I/O. What is left is a thin layer of
deterministic rules, and this project models exactly that layer as pure Dafny
functions, with every hidden input (`parser.parse_args()`, `date.today()`, the
rendered page) turned into a parameter:

- **Query builder** (`query.dfy`, module `Query`): `get_search_str` prefixes every
  keyword with `%20` and concatenates; with no keywords it falls back to
  `Fixed Income Automation`. `fetch_posts` drops the first three characters and
  quotes the rest in one of two search URLs, the recency one exactly when
  `--order` is `date`.
- **Pagination** (`paging.dfy`, module `Paging`): `get_depth` is `depth or 2`; the
  scroll loop runs `len(range(1, depth))` times, each pass pressing END and
  sleeping five seconds. The browser interaction is a returned list of actions.
- **Extraction and formatting** (`extract.dfy`, module `Extract`): the null-safe
  `get_text` (missing element gives `None`, otherwise the stripped text), the
  four lookups per post, the f-string record with `None` printed literally, and
  the 60-dash block `save_post` appends, one block per post in document order.
- **File name and subject** (`naming.dfy`, module `Naming`): `set_file_name`
  (`Feed-{stem}-{DD-MM-YYYY}.txt`, the stem being the search string with spaces
  and `%20` deleted) and the e-mail subject `file_name[:-15]`.
- **Main flow** (`pipeline.dfy`, module `Pipeline`): the browser actions after
  login, the file that exists after the run, and what gets mailed.
- **Python primitives** (`text.dfy`, module `Text`): `str.strip()` with Python's
  whitespace set, `str.replace(old, new)`, the slices `s[n:]` and `s[:-n]`, the
  newline translation of a text-mode read, `str.splitlines()`, and a
  first-occurrence split used to read formatted records back.
  `wrappers.dfy` holds the `Option` type used for Python's `None`.

Behaviour of the code that the model keeps, although it looks unintended:

- The default search string has no leading `%20`, but the URL still drops three
  characters from it, so the URL would quote `ed Income Automation`
  (`Query.DefaultEmbeddedText`). The command line makes `--keywords` required with
  at least one value, so the default is never reached in practice.
- `str.replace("%20", "")` can create a new `%20` (`%2%200` becomes `%20`), so the
  model claims only that the stem holds no space, not that it holds no `%20`.
- When no post matches, `save_post` is never called, the file never exists after
  `checkFileExists` removed it, and opening it for the e-mail fails
  (`Pipeline.Run` ends in `FileMissing`).
- A present element with empty text gives `""`, not `None`: a BeautifulSoup tag is
  always truthy, so only a missing element yields `None`.
- The stem is put into a path unchecked: a keyword such as `AI/ML` names a
  directory `Feed-AI`, and when the file system cannot create the file the first
  `save_post` raises, so the browser is never closed and no mail is sent
  (`Pipeline.Run` ends in `WriteFailed`).
- The keywords also reach the e-mail subject unchecked. The e-mail library refuses
  a header value that `splitlines()` cuts into more than one line, so a keyword
  holding a line break before the subject's last character makes
  `msg['Subject'] = ...` raise `ValueError`. That happens before the file is opened
  and before anything is mailed (`Pipeline.Run` ends in `SubjectRejected`;
  `Pipeline.MultiLineSubjectExample` shows the keyword `a\nb`).
- The help text of `--depth` and the docstring of `get_depth` describe the depth as
  the number of PAGE_DOWN presses. The loop presses END instead, and only
  `depth - 1` times. The model follows the loop (`Paging.Scroll`,
  `Paging.ScrollCount`).

The code accepts any integer depth, treats 0 like an unset depth and scrolls zero
times for a negative one. It has no error handling beyond printing a login failure,
so an exception ends the script.

The mail body is the file read back in text mode, which is
`replace("\r\n", "\n")` followed by `replace("\r", "\n")`
(`Text.UniversalNewlinesIsReplace`, `Pipeline.Run`). A post with a `\r` in any
field is therefore never mailed as saved (`Pipeline.CarriageReturnInMail`); a
text `a\rb`, for one, arrives as `a\nb` (`Pipeline.CarriageReturnExample`).
Conversely, when no saved field holds a `\r`, the file holds none and is mailed
exactly as saved (`Pipeline.PlainPostsMailedAsSaved`).

## Model

| member | source | states |
|---|---|---|
| Text.Strip | scrapeLIContentFeed.py:79 | `strip()` keeps a contiguous piece of the text, removes only whitespace before and after it, and leaves no whitespace at either end |
| Text.StripUnique | scrapeLIContentFeed.py:79 | any split of a text into whitespace, a piece with no whitespace at its ends, and whitespace has that piece as the stripped text, so the contract of `Text.Strip` determines it |
| Text.StripIdempotent | scrapeLIContentFeed.py:79 | stripping an already stripped text changes nothing |
| Text.StripFixedIff | scrapeLIContentFeed.py:79 | `strip()` leaves a text unchanged exactly when it has no whitespace at either end |
| Text.Replace | scrapeLIContentFeed.py:34 | `replace(old, new)` with a replacement no longer than the pattern never lengthens a text; it only brings in characters of the text or the replacement; a text without any occurrence comes back unchanged; a one-character pattern absent from the replacement no longer occurs afterwards |
| Text.RemoveAll | scrapeLIContentFeed.py:34 | `replace(old, "")` never lengthens a text and only keeps characters of the input; a text without any occurrence comes back unchanged; a one-character pattern such as a space no longer occurs afterwards |
| Text.RemoveAllSingle | scrapeLIContentFeed.py:34 | `replace(" ", "")` is exactly the filter that drops every space and keeps all other characters in order |
| Text.Without | scrapeLIContentFeed.py:34 | the filter keeps exactly the characters of the text other than the dropped one |
| Text.RemoveAllKeepsFree | scrapeLIContentFeed.py:34 | text that does not contain the pattern's first character passes through `replace` unchanged, and the rest is processed independently |
| Text.RemoveAllDropsLeading | scrapeLIContentFeed.py:34 | an occurrence at the start is deleted and scanning resumes after it, without overlap |
| Text.Repeat | scrapeLIContentFeed.py:85 | `"-" * 60` is 60 characters, each a dash |
| Text.DropPrefix | scrapeLIContentFeed.py:121 | `s[3:]` is the rest of `s` after its first three characters, or empty when `s` is shorter |
| Text.UniversalNewlines | scrapeLIContentFeed.py:184-185 | reading a file in text mode leaves no `\r`, never lengthens the text, and returns a text without `\r` unchanged |
| Text.UniversalNewlinesIsReplace | scrapeLIContentFeed.py:184-185 | the text-mode read turns each `\r\n` into one `\n` and then each remaining `\r` into `\n`, i.e. it equals the two chained `replace` calls |
| Text.UniversalNewlinesAppend | scrapeLIContentFeed.py:184-185 | reading two pieces of a file gives the same text as reading them together when the first does not end with `\r` |
| Text.SplitLines | scrapeLIContentFeed.py:168 | `splitlines()`, which the e-mail library applies to a header value, gives no lines for an empty text, at least one otherwise, and none of them holds a line boundary |
| Text.SplitLinesOneLine | scrapeLIContentFeed.py:168 | `splitlines()` gives at most one line exactly when every line boundary in the text, `\r\n` counted as one, ends the text |
| Text.NoLineBreakOneLine | scrapeLIContentFeed.py:168 | a text without line boundaries is a single line to `splitlines()` |
| Text.DropSuffix | scrapeLIContentFeed.py:168 | `s[:-15]` is `s` without its last fifteen characters, or empty when `s` is not longer than that |
| Query.SearchString | scrapeLIContentFeed.py:46-60 | no keywords give `Fixed Income Automation`; otherwise `%20` followed by the keywords joined by `%20` |
| Query.Prefixed | scrapeLIContentFeed.py:54-58 | the accumulated search string is as long as all keywords together plus three characters per keyword |
| Query.PrefixedSnoc | scrapeLIContentFeed.py:55-56 | one loop pass appends `%20` and the next keyword to what was accumulated |
| Query.PrefixedIsJoin | scrapeLIContentFeed.py:54-58 | for a non-empty list, the search string is `%20` followed by the keywords joined by `%20` |
| Query.BuildSearchString | scrapeLIContentFeed.py:46-60 | no keywords yield exactly `Fixed Income Automation`; otherwise the result is `%20` followed by the keywords joined by `%20` |
| Query.EmbeddedKeywords | scrapeLIContentFeed.py:120-123 | for a non-empty list, `searchString[3:]` is the keywords joined by `%20`, without a leading separator |
| Query.DefaultEmbeddedText | scrapeLIContentFeed.py:116-123 | with no keywords, the text quoted in the URL is `ed Income Automation` because three characters are dropped from a string that has no separator |
| Query.SortModeOf | scrapeLIContentFeed.py:116-120 | the recency template is chosen exactly when `--order` is the text `date`; unset, empty or any other value chooses relevance |
| Query.EndpointUrl | scrapeLIContentFeed.py:120-123 | both URLs start with the content-search address |
| Query.EndpointRoundTrip | scrapeLIContentFeed.py:120-123 | reading the URL back gives the template chosen by `--order` and, between `keywords="` and `"`, exactly `searchString[3:]` |
| Query.QueryUrl | scrapeLIContentFeed.py:113-123 | for a non-empty list, whichever template is chosen, the URL quotes the keywords joined by `%20` |
| Query.EndpointUrlInjective | scrapeLIContentFeed.py:120-123 | equal URLs come only from the same template and the same quoted keyword text |
| Paging.DepthOrDefault | scrapeLIContentFeed.py:63-69 | an unset depth or depth 0 becomes 2; any other depth, negative ones included, is kept |
| Paging.Range | scrapeLIContentFeed.py:129 | `range(lo, hi)` has `max(0, hi - lo)` elements, counting up from `lo` |
| Paging.ScrollCount | scrapeLIContentFeed.py:129 | the scroll loop runs `max(0, d - 1)` times for the effective depth `d` |
| Paging.Scroll | scrapeLIContentFeed.py:129-134 | the loop produces one END press followed by one five-second settle per pass, nothing else |
| Paging.ScrollCountExamples | scrapeLIContentFeed.py:129 | depth 1 scrolls 0 times, depth 3 twice, unset or 0 once, a negative depth never |
| Naming.FormatDate | scrapeLIContentFeed.py:35 | `%d-%m-%Y` is ten characters with dashes at positions 2 and 5 |
| Naming.DateRoundTrip | scrapeLIContentFeed.py:35 | the date stamp can be read back into the date it was made from |
| Naming.FileStem | scrapeLIContentFeed.py:34 | the stem contains no space and is no longer than the search string |
| Naming.FileName | scrapeLIContentFeed.py:33-36 | the file name is `Feed-`, then the stem, then `-`, the date and `.txt`, and nothing else |
| Naming.StampOfFileName | scrapeLIContentFeed.py:35 | the date read back from the ten characters before `.txt` of the file written on a day is that day |
| Naming.Subject | scrapeLIContentFeed.py:168 | the subject is the file name without its last fifteen characters, or empty for a name no longer than that |
| Naming.SubjectOfFileName | scrapeLIContentFeed.py:168 | for a ten-character date, the subject `file_name[:-15]` is `Feed-` followed by the stem |
| Naming.SubjectOfDatedFileName | scrapeLIContentFeed.py:168 | the subject of the file written on any day is `Feed-` followed by the stem |
| Naming.NoSpaceInPrefixed | scrapeLIContentFeed.py:54-58 | keywords without spaces give a search string without spaces |
| Naming.StemOfPrefixed | scrapeLIContentFeed.py:34 | deleting `%20` from the search string of keywords without `%` runs the keywords together |
| Naming.StemOfKeywords | scrapeLIContentFeed.py:33-36 | for keywords without spaces or `%`, the file stem is the keywords concatenated |
| Naming.SearchStringNoLineBreak | scrapeLIContentFeed.py:46-60 | keywords without line boundaries give a search string without any |
| Naming.SubjectOneLine | scrapeLIContentFeed.py:168 | keywords without line boundaries give a subject that is a single line to `splitlines()`, on any day |
| Extract.GetText | scrapeLIContentFeed.py:72-79 | a missing element gives `None`; a present one gives its text stripped of surrounding whitespace |
| Extract.GetTextIdempotent | scrapeLIContentFeed.py:76-79 | applying the accessor's normalization to its own output changes nothing |
| Extract.ExtractPost | scrapeLIContentFeed.py:145-155 | each of the four fields is `None` exactly when its sub-element is missing, and otherwise that element's stripped text |
| Extract.Render | scrapeLIContentFeed.py:157-159 | a present text is printed as itself, and the output is `None` exactly when the field is missing or is the text `None` |
| Extract.FormatRecord | scrapeLIContentFeed.py:157-159 | the record starts with the author name and `, `, ends with a blank line and the post text, and adds six characters to the four fields |
| Extract.EmptyPostRecord | scrapeLIContentFeed.py:157-159 | a post lacking every sub-element still yields a record, printed as `None, None, None`, a blank line and `None` |
| Extract.RecordRoundTrip | scrapeLIContentFeed.py:157-159 | when name and description hold no comma and the age no newline, the four printed fields can be read back from the record text |
| Extract.SeparatorHasNoCarriageReturn | scrapeLIContentFeed.py:85 | the 60-dash rule holds no `\r` |
| Extract.Block | scrapeLIContentFeed.py:82-91 | a block starts with the 60-dash rule and its newline, ends with a newline, and is the record plus 62 characters long |
| Extract.BlockRoundTrip | scrapeLIContentFeed.py:85-90 | the record text can be read back from a block |
| Extract.ExtractAll | scrapeLIContentFeed.py:145-155 | one record per post element, in document order, none dropped |
| Extract.BlocksOfRecords | scrapeLIContentFeed.py:145-161 | block `i` of the file is the block of record `i` of the extracted records |
| Extract.ScrapePosts | scrapeLIContentFeed.py:142-161 | the loop with its inline f-string produces exactly the blocks `Extract.Blocks` describes |
| Extract.Blocks | scrapeLIContentFeed.py:142-161 | the blocks of a page are one per post, in order |
| Extract.Concat | scrapeLIContentFeed.py:88-90 | the appended text is as long as all blocks together |
| Extract.BlockAtOffset | scrapeLIContentFeed.py:88-90 | every block stands in the appended text unchanged, starting where the blocks before it end |
| Extract.ConcatWithout | scrapeLIContentFeed.py:88-90 | a character that is in no block is nowhere in the appended text |
| Extract.ConcatAppend | scrapeLIContentFeed.py:88-90 | appending blocks leaves everything written before unchanged |
| Extract.FileOfConcatenatedPosts | scrapeLIContentFeed.py:142-161 | the file for two runs of posts is the file for the first followed by the file for the second |
| Pipeline.BrowserActions | scrapeLIContentFeed.py:113-134 | after login the browser opens the search URL once and then does `2 * ScrollCount` scroll actions, END and settle alternating |
| Pipeline.SavedFile | scrapeLIContentFeed.py:205-215 | when the file name can be created, the output file exists exactly when at least one post was found, and then holds at least 62 characters per post |
| Pipeline.SavedFileHoldsPost | scrapeLIContentFeed.py:142-161 | each post's block stands in the file unchanged, right after the blocks of the posts before it |
| Pipeline.SavedFileAppend | scrapeLIContentFeed.py:88-90 | saving one more post keeps the file's text and appends that post's block |
| Pipeline.Run | scrapeLIContentFeed.py:205-224 | the file name is built from the search string and today's date; with posts and a name that cannot be created the first write fails; otherwise a subject that `splitlines()` cuts into several lines is refused; otherwise with no post the mail step finds no file; otherwise the run mails, under the subject `Feed-` and the stem, the file read back in text mode, holding no `\r` |
| Pipeline.PlainKeywordsMailed | scrapeLIContentFeed.py:205-224 | with keywords free of line boundaries the run mails exactly when a post was saved and the file could be created |
| Pipeline.MultiLineSubjectExample | scrapeLIContentFeed.py:166-169 | the keyword `a\nb` gives the subject `Feed-a\nb`, which is refused, so a run that saved posts mails nothing |
| Pipeline.MailedBodyIsFile | scrapeLIContentFeed.py:184-187 | when the run mails, the mail body is the file's text exactly when the file holds no `\r` |
| Pipeline.NoCarriageReturnInBlock | scrapeLIContentFeed.py:85-90 | a post whose fields hold no `\r` writes a block without `\r` |
| Pipeline.PlainPostsMailedAsSaved | scrapeLIContentFeed.py:184-187 | when no saved field holds a `\r`, the file holds none, and a mailed body is the file exactly as saved |
| Pipeline.CarriageReturnInBlock | scrapeLIContentFeed.py:85-90 | a `\r` in any field of a post is written to that post's block |
| Pipeline.CarriageReturnInMail | scrapeLIContentFeed.py:184-187 | on any page, a post with a `\r` in any field makes a mailed body differ from the saved file |
| Pipeline.CarriageReturnExample | scrapeLIContentFeed.py:184-187 | a post whose only field is the text `a\rb` is saved with `a\rb`, and a run that mails it sends `a\nb` |
| Pipeline.FixedIncomeActions | scrapeLIContentFeed.py:113-134 | keywords `Fixed Income` at depth 2 with relevance order open the relevance URL quoting `Fixed%20Income` and scroll once |
| Pipeline.FixedIncomeFileName | scrapeLIContentFeed.py:33-36 | the same keywords on 10 October 2026 write `Feed-FixedIncome-10-10-2026.txt` and mail it under `Feed-FixedIncome` |

## Left out

- `login_linkedin`: browser I/O with fixed credentials and a swallowed exception; the credentials are not reproduced. `Pipeline.BrowserActions` starts after the login.
- Launching Edge, `browser.get`, `find_element_*`, key events and `browser.close`: calls into a live renderer. They appear only as `Navigate`, `PressEnd` and `Settle` actions.
- `time.sleep(5)`: a timing side effect. Only the `Settle(5)` action and the number of passes are modelled.
- BeautifulSoup parsing and the CSS selectors: an opaque library. Each selected sub-element is an `Option` of its raw text, and the page is the list of matched post elements.
- `save_post` file appends and `checkFileExists`: file-system I/O. The written blocks and the file's text are returned values; the deletion is modelled as the file starting absent.
- `sendViaEmail`: SMTP I/O with fixed credentials. Only the subject, its refusal when it spans several lines, the body and the failure to open a missing file are modelled, not the other headers, the library's other checks of header values, a failing connection or the UTF-8 encoding of the body.
- Writing in text mode: `save_post` writes `\n` as the platform's line separator; the model takes it to be `\n`, as on POSIX systems. On Windows the file's text differs from the modelled one at every line end.
- argparse, `date.today()`, `print` and `sys.exit`: replaced by parameters, or left out as output only.
- Naming.FormatDate: requires a year from 1000 to 9999, because `%Y` for earlier years is padded differently on different platforms.
- Pipeline.Run: whether the file system accepts the file name is a parameter rather than derived from the name, because it depends on the operating system and on which directories exist.
- Pipeline.SavedFile: describes the file when every write succeeds; the failing first write is the `WriteFailed` outcome of `Pipeline.Run`.
- Pipeline.Run: uses one date for the whole run, while `save_post` recomputes the file name for every post; a run that crosses midnight would write to two files.
- Extract.GetText: takes the element's text as given, without modelling how BeautifulSoup's `get_text()` joins the strings of nested elements.

=== FILE: extract.dfy ===
/**
 Post extraction and formatting: `scrape_posts` reads four sub-elements of every
 `li.search-content__result` element through the null-safe `get_text`, formats
 them as one record, and `save_post` appends a 60-dash rule and the record to the
 output file.
 */
module Extract {

  import opened Wrappers
  import opened Text

  /** One matched post element: for each of the four sub-element selectors (author
      name, author description, post age, post text), the raw text of the first
      match, or `None` when the selector finds nothing. */
  datatype PostElement = PostElement(
    name: Option<string>,
    description: Option<string>,
    age: Option<string>,
    body: Option<string>)

  /** The normalized record extracted from one post element. */
  datatype PostRecord = PostRecord(
    authorName: Option<string>,
    authorDescription: Option<string>,
    postAge: Option<string>,
    bodyText: Option<string>)

  /** `v` is the normalized form of the raw field `raw`: absent exactly when the
      element is, and otherwise the element's text stripped of surrounding
      whitespace. */
  ghost predicate Normalized(raw: Option<string>, v: Option<string>) {
    match raw
    case None => v.None?
    case Some(t) => v.Some? && IsStripOf(v.value, t)
  }

  /** `get_text`: a missing element gives `None`; a present one its stripped text
      (possibly empty). */
  function GetText(element: Option<string>): (r: Option<string>)
    ensures Normalized(element, r)
  {
    match element
    case None => None
    case Some(t) => Some(Strip(t))
  }

  /** Applying `get_text`'s normalization to its own output changes nothing. */
  lemma GetTextIdempotent(element: Option<string>)
    ensures GetText(GetText(element)) == GetText(element)
  {
    if element.Some? {
      StripIdempotent(element.value);
    }
  }

  /** The four `get_text` calls of `scrape_posts` for one post. */
  function ExtractPost(p: PostElement): (r: PostRecord)
    ensures Normalized(p.name, r.authorName)
    ensures Normalized(p.description, r.authorDescription)
    ensures Normalized(p.age, r.postAge)
    ensures Normalized(p.body, r.bodyText)
  {
    PostRecord(GetText(p.name), GetText(p.description), GetText(p.age), GetText(p.body))
  }

  /** How an f-string renders an optional text: `None` as the literal `None`. */
  function Render(v: Option<string>): (r: string)
    ensures v.Some? ==> r == v.value
    ensures r == "None" <==> v == None || v == Some("None")
  {
    match v
    case None => "None"
    case Some(s) => s
  }

  /** The f-string `"{name}, {description}, {age}\n\n{text}"` of `scrape_posts`. */
  function FormatRecord(rec: PostRecord): (r: string)
    ensures |r| == |Render(rec.authorName)| + |Render(rec.authorDescription)|
                   + |Render(rec.postAge)| + |Render(rec.bodyText)| + 6
    ensures r[..|Render(rec.authorName)| + 2] == Render(rec.authorName) + ", "
    ensures r[|r| - |Render(rec.bodyText)| - 2..] == "\n\n" + Render(rec.bodyText)
  {
    var a, d, g, t := Render(rec.authorName), Render(rec.authorDescription),
                      Render(rec.postAge), Render(rec.bodyText);
    var r := a + ", " + d + ", " + g + "\n\n" + t;
    assert r == (a + ", ") + (d + ", " + g) + ("\n\n" + t);
    r
  }

  /** The rule `save_post` writes before every record: 60 dashes and a newline. */
  const PostSeparator: string := Repeat('-', 60) + "\n"

  /** The rule holds no carriage return. */
  lemma SeparatorHasNoCarriageReturn()
    ensures '\r' !in PostSeparator
  {
    assert forall k :: 0 <= k < |PostSeparator| ==> PostSeparator[k] != '\r' by {
      assert PostSeparator == Repeat('-', 60) + "\n";
    }
  }

  /** What one `save_post` call appends to the file. */
  function Block(rec: PostRecord): (b: string)
    ensures |b| == |PostSeparator| + |FormatRecord(rec)| + 1
    ensures b[..|PostSeparator|] == PostSeparator && b[|b| - 1] == '\n'
  {
    PostSeparator + FormatRecord(rec) + "\n"
  }

  /** Reads a block back into the record text between the rule and the final
      newline. */
  function ParseBlock(b: string): Option<string> {
    if |b| >= |PostSeparator| + 1 && b[..|PostSeparator|] == PostSeparator && b[|b| - 1] == '\n'
    then Some(b[|PostSeparator|..|b| - 1])
    else None
  }

  lemma BlockRoundTrip(rec: PostRecord)
    ensures ParseBlock(Block(rec)) == Some(FormatRecord(rec))
  {
    var b := Block(rec);
    assert b[|PostSeparator|..|b| - 1] == FormatRecord(rec);
  }

  /** A record's four rendered fields read back from its text. */
  datatype Fields = Fields(name: string, description: string, age: string, body: string)

  /** Splits a record text at its first `", "`, the next `", "` and the next blank
      line. */
  function ParseRecord(text: string): Option<Fields> {
    match SplitFirst(text, ", ")
    case None => None
    case Some((name, rest)) =>
      match SplitFirst(rest, ", ")
      case None => None
      case Some((description, rest')) =>
        match SplitFirst(rest', "\n\n")
        case None => None
        case Some((age, body)) => Some(Fields(name, description, age, body))
  }

  /** The record text determines the rendered fields whenever the author name and
      description hold no comma and the age no newline. */
  lemma RecordRoundTrip(rec: PostRecord)
    requires ',' !in Render(rec.authorName) && ',' !in Render(rec.authorDescription)
    requires '\n' !in Render(rec.postAge)
    ensures ParseRecord(FormatRecord(rec))
         == Some(Fields(Render(rec.authorName), Render(rec.authorDescription),
                        Render(rec.postAge), Render(rec.bodyText)))
  {
    var a, d, g, t := Render(rec.authorName), Render(rec.authorDescription),
                      Render(rec.postAge), Render(rec.bodyText);
    var rest' := g + "\n\n" + t;
    var rest := d + ", " + rest';
    assert FormatRecord(rec) == a + ", " + rest;
    SplitFirstAfterFree(a, ", ", rest);
    SplitFirstAfterFree(d, ", ", rest');
    SplitFirstAfterFree(g, "\n\n", t);
  }

  /** A post with none of its four sub-elements still yields a record, printed as
      four `None`s. */
  lemma EmptyPostRecord(p: PostElement)
    requires p == PostElement(None, None, None, None)
    ensures FormatRecord(ExtractPost(p)) == "None, None, None\n\nNone"
  {
  }

  /** The records of all matched posts, one per post, in document order. */
  function ExtractAll(posts: seq<PostElement>): (rs: seq<PostRecord>)
    ensures |rs| == |posts|
    ensures forall i :: 0 <= i < |posts| ==> rs[i] == ExtractPost(posts[i])
  {
    if |posts| == 0 then [] else [ExtractPost(posts[0])] + ExtractAll(posts[1..])
  }

  /** Where block `i` starts in the file: the total length of the blocks before it. */
  function Offset(blocks: seq<string>, i: nat): nat
    requires i <= |blocks|
  {
    if i == 0 then 0 else |blocks[0]| + Offset(blocks[1..], i - 1)
  }

  /** The text appended to the file, block after block: it is as long as all
      blocks together. */
  function Concat(blocks: seq<string>): (r: string)
    ensures |r| == Offset(blocks, |blocks|)
  {
    if |blocks| == 0 then "" else blocks[0] + Concat(blocks[1..])
  }

  /** A character in none of the blocks is nowhere in their concatenation. */
  lemma {:induction false} ConcatWithout(blocks: seq<string>, c: char)
    requires forall i :: 0 <= i < |blocks| ==> c !in blocks[i]
    ensures c !in Concat(blocks)
  {
    if |blocks| > 0 {
      ConcatWithout(blocks[1..], c);
    }
  }

  /** `text` holds `b` starting at position `o`. */
  predicate Holds(text: string, o: nat, b: string) {
    o + |b| <= |text| && text[o..o + |b|] == b
  }

  /** Block `i` sits in the file at its offset, unchanged. */
  lemma {:induction false} BlockAtOffset(blocks: seq<string>, i: nat)
    requires i < |blocks|
    ensures Holds(Concat(blocks), Offset(blocks, i), blocks[i])
  {
    var r, rest := Concat(blocks), Concat(blocks[1..]);
    if i == 0 {
      assert r[..|blocks[0]|] == blocks[0];
      OffsetGrows(blocks[1..], 0);
    } else {
      BlockAtOffset(blocks[1..], i - 1);
      var o := Offset(blocks[1..], i - 1);
      assert blocks[1..][i - 1] == blocks[i];
      assert r[|blocks[0]| + o..|blocks[0]| + o + |blocks[i]|] == rest[o..o + |blocks[i]|];
    }
  }

  /** Offsets never decrease. */
  lemma {:induction false} OffsetGrows(blocks: seq<string>, i: nat)
    requires i <= |blocks|
    ensures Offset(blocks, i) <= Offset(blocks, |blocks|)
  {
    if i > 0 {
      OffsetGrows(blocks[1..], i - 1);
    }
  }

  /** Appending more blocks leaves what was written before untouched. */
  lemma {:induction false} ConcatAppend(b1: seq<string>, b2: seq<string>)
    ensures Concat(b1 + b2) == Concat(b1) + Concat(b2)
  {
    if |b1| == 0 {
      assert b1 + b2 == b2;
    } else {
      assert (b1 + b2)[1..] == b1[1..] + b2;
      ConcatAppend(b1[1..], b2);
    }
  }

  /** The blocks `scrape_posts` writes for the given posts. */
  function Blocks(posts: seq<PostElement>): (bs: seq<string>)
    ensures |bs| == |posts|
    ensures forall i :: 0 <= i < |posts| ==> bs[i] == Block(ExtractPost(posts[i]))
  {
    if |posts| == 0 then [] else [Block(ExtractPost(posts[0]))] + Blocks(posts[1..])
  }

  /** The blocks are those of the extracted records, post by post. */
  lemma BlocksOfRecords(posts: seq<PostElement>)
    ensures |Blocks(posts)| == |ExtractAll(posts)|
    ensures forall i :: 0 <= i < |posts| ==> Blocks(posts)[i] == Block(ExtractAll(posts)[i])
  {
  }

  /** `scrape_posts`: one `save_post` block per matched post, in document order;
      no post is skipped, whatever fields it lacks. */
  method ScrapePosts(posts: seq<PostElement>) returns (blocks: seq<string>)
    ensures blocks == Blocks(posts)
  {
    blocks := [];
    for i := 0 to |posts|
      invariant |blocks| == i
      invariant forall k :: 0 <= k < i ==> blocks[k] == Block(ExtractPost(posts[k]))
    {
      var post := posts[i];
      var name := GetText(post.name);
      var description := GetText(post.description);
      var age := GetText(post.age);
      var text := GetText(post.body);
      var result := Render(name) + ", " + Render(description) + ", " + Render(age) + "\n\n" + Render(text);
      blocks := blocks + [PostSeparator + result + "\n"];
    }
  }

  /** The file written for `p1 + p2` is the file for `p1` followed by the file for
      `p2`: every post's block lands after its predecessors'. */
  lemma FileOfConcatenatedPosts(p1: seq<PostElement>, p2: seq<PostElement>)
    ensures Concat(Blocks(p1 + p2)) == Concat(Blocks(p1)) + Concat(Blocks(p2))
  {
    var b, b1, b2 := Blocks(p1 + p2), Blocks(p1), Blocks(p2);
    forall i | 0 <= i < |b|
      ensures b[i] == (b1 + b2)[i]
    {
      if i < |p1| {
        assert (p1 + p2)[i] == p1[i];
      } else {
        assert (p1 + p2)[i] == p2[i - |p1|];
      }
    }
    assert b == b1 + b2;
    ConcatAppend(b1, b2);
  }
}

=== FILE: naming.dfy ===
/**
 The output file's name and the e-mail subject: `set_file_name` strips spaces and
 `%20` from the search string and stamps it with today's date formatted by
 `strftime('%d-%m-%Y')`; `sendViaEmail` takes `file_name[:-15]` as the subject.
 */
module Naming {

  import opened Wrappers
  import opened Text
  import Query

  /** A calendar date as `date.today()` returns it. */
  datatype CalendarDate = CalendarDate(year: int, month: int, day: int)

  /** Dates whose `%d-%m-%Y` rendering is two, two and four digits. */
  predicate Formattable(d: CalendarDate) {
    1 <= d.day <= 31 && 1 <= d.month <= 12 && 1000 <= d.year <= 9999
  }

  predicate IsDigit(c: char) {
    '0' <= c <= '9'
  }

  function Digit(n: int): (c: char)
    requires 0 <= n < 10
    ensures IsDigit(c)
  {
    ('0' as int + n) as char
  }

  function DigitValue(c: char): (n: int)
    requires IsDigit(c)
    ensures 0 <= n < 10
  {
    c as int - '0' as int
  }

  /** `n` in decimal with exactly `width` digits, leading zeros included. */
  function Digits(n: int, width: nat): (s: string)
    requires 0 <= n
    ensures |s| == width
    ensures forall k :: 0 <= k < |s| ==> IsDigit(s[k])
  {
    if width == 0 then "" else Digits(n / 10, width - 1) + [Digit(n % 10)]
  }

  /** The number a string of decimal digits denotes. */
  function Number(s: string): (n: nat)
    requires forall k :: 0 <= k < |s| ==> IsDigit(s[k])
  {
    if |s| == 0 then 0 else 10 * Number(s[..|s| - 1]) + DigitValue(s[|s| - 1])
  }

  /** Reading back `width` digits gives `n` as long as `n` fits in them. */
  lemma {:induction false} NumberDigits(n: int, width: nat)
    requires 0 <= n < Power10(width) && width > 0
    ensures Number(Digits(n, width)) == n
  {
    var s := Digits(n, width);
    assert s[..|s| - 1] == Digits(n / 10, width - 1);
    assert DigitValue(s[|s| - 1]) == n % 10;
    if width == 1 {
      assert n / 10 == 0;
      assert Digits(0, 0) == "";
    } else {
      assert n / 10 < Power10(width - 1) by {
        assert Power10(width) == 10 * Power10(width - 1);
      }
      NumberDigits(n / 10, width - 1);
    }
  }

  function Power10(k: nat): (p: nat)
    ensures p >= 1
  {
    if k == 0 then 1 else 10 * Power10(k - 1)
  }

  /** `date.strftime('%d-%m-%Y')`. */
  function FormatDate(d: CalendarDate): (s: string)
    requires Formattable(d)
    ensures |s| == 10 && s[2] == '-' && s[5] == '-'
  {
    Digits(d.day, 2) + "-" + Digits(d.month, 2) + "-" + Digits(d.year, 4)
  }

  /** Reads a `DD-MM-YYYY` stamp back into a date. */
  function ParseDate(s: string): Option<CalendarDate> {
    if |s| == 10 && s[2] == '-' && s[5] == '-'
       && (forall k :: 0 <= k < 10 && k != 2 && k != 5 ==> IsDigit(s[k]))
    then
      assert forall k :: 0 <= k < 2 ==> s[..2][k] == s[k];
      assert forall k :: 0 <= k < 2 ==> s[3..5][k] == s[3 + k];
      assert forall k :: 0 <= k < 4 ==> s[6..][k] == s[6 + k];
      Some(CalendarDate(Number(s[6..]), Number(s[3..5]), Number(s[..2])))
    else
      None
  }

  /** The date stamp in the file name determines the date. */
  lemma DateRoundTrip(d: CalendarDate)
    requires Formattable(d)
    ensures ParseDate(FormatDate(d)) == Some(d)
  {
    var s := FormatDate(d);
    assert s[..2] == Digits(d.day, 2);
    assert s[3..5] == Digits(d.month, 2);
    assert s[6..] == Digits(d.year, 4);
    assert Power10(2) == 100 && Power10(4) == 10000;
    NumberDigits(d.day, 2);
    NumberDigits(d.month, 2);
    NumberDigits(d.year, 4);
  }

  /** The keyword part of the file name: `searchString.replace(" ", "").replace("%20", "")`. */
  function FileStem(searchString: string): (r: string)
    ensures ' ' !in r
    ensures |r| <= |searchString|
  {
    RemoveAll(RemoveAll(searchString, " "), "%20")
  }

  /** `set_file_name`: `Feed-{stem}-{date}.txt`. */
  function FileName(searchString: string, date: string): (r: string)
    ensures |r| == 10 + |FileStem(searchString)| + |date|
    ensures r[..5] == "Feed-" && r[5..5 + |FileStem(searchString)|] == FileStem(searchString)
    ensures r[|r| - |date| - 5..] == "-" + date + ".txt"
  {
    var r := "Feed-" + FileStem(searchString) + "-" + date + ".txt";
    assert r == ("Feed-" + FileStem(searchString)) + ("-" + date + ".txt");
    r
  }

  /** The date stamp of a file name: the ten characters before `.txt`. */
  function Stamp(fileName: string): Option<CalendarDate> {
    if |fileName| < 14 then None else ParseDate(fileName[|fileName| - 14..|fileName| - 4])
  }

  /** The file written on a day carries that day's date, readable back from its
      name. */
  lemma StampOfFileName(searchString: string, today: CalendarDate)
    requires Formattable(today)
    ensures Stamp(FileName(searchString, FormatDate(today))) == Some(today)
  {
    var date := FormatDate(today);
    var f := FileName(searchString, date);
    assert f[|f| - 14..|f| - 4] == f[|f| - 15..][1..11];
    DateRoundTrip(today);
  }

  /** The e-mail subject, `file_name[:-15]`: the name without its last fifteen
      characters, or empty for a name no longer than that. */
  function Subject(fileName: string): (r: string)
    ensures |fileName| > 15 ==> fileName == r + fileName[|fileName| - 15..]
    ensures |fileName| <= 15 ==> r == ""
  {
    DropSuffix(fileName, 15)
  }

  /** With a ten-character date the subject is `Feed-` and the stem: the fifteen
      characters cut are the dash, the date and `.txt`. */
  lemma SubjectOfFileName(searchString: string, date: string)
    requires |date| == 10
    ensures Subject(FileName(searchString, date)) == "Feed-" + FileStem(searchString)
  {
    var f := FileName(searchString, date);
    assert f == ("Feed-" + FileStem(searchString)) + ("-" + date + ".txt");
  }

  /** The subject of the file name written on a given day. */
  lemma SubjectOfDatedFileName(searchString: string, today: CalendarDate)
    requires Formattable(today)
    ensures Subject(FileName(searchString, FormatDate(today))) == "Feed-" + FileStem(searchString)
  {
    SubjectOfFileName(searchString, FormatDate(today));
  }

  /** The search string of space-free keywords holds no space. */
  lemma {:induction false} NoSpaceInPrefixed(ks: seq<string>)
    requires forall i :: 0 <= i < |ks| ==> ' ' !in ks[i]
    ensures ' ' !in Query.Prefixed(ks)
  {
    if |ks| > 0 {
      NoSpaceInPrefixed(ks[1..]);
      assert Query.Prefixed(ks) == "%20" + ks[0] + Query.Prefixed(ks[1..]);
    }
  }

  /** Deleting every `%20` from the search string of `%`-free keywords runs the
      keywords together. */
  lemma {:induction false} StemOfPrefixed(ks: seq<string>)
    requires forall i :: 0 <= i < |ks| ==> '%' !in ks[i]
    ensures RemoveAll(Query.Prefixed(ks), "%20") == Query.Join(ks, "")
  {
    if |ks| > 0 {
      StemOfPrefixed(ks[1..]);
      var rest := Query.Prefixed(ks[1..]);
      assert Query.Prefixed(ks) == "%20" + (ks[0] + rest);
      RemoveAllDropsLeading("%20", ks[0] + rest);
      RemoveAllKeepsFree(ks[0], rest, "%20");
      if |ks| == 1 {
        assert rest == "";
      }
    }
  }

  /** For keywords without spaces or `%`, the file stem is the keywords run together. */
  lemma StemOfKeywords(keywords: seq<string>)
    requires |keywords| > 0
    requires forall i :: 0 <= i < |keywords| ==> ' ' !in keywords[i] && '%' !in keywords[i]
    ensures FileStem(Query.SearchString(keywords)) == Query.Join(keywords, "")
  {
    var s := Query.Prefixed(keywords);
    NoSpaceInPrefixed(keywords);
    RemoveAllKeepsFree(s, "", " ");
    assert s + "" == s;
    StemOfPrefixed(keywords);
  }

  /** The search string of keywords without line boundaries has none either. */
  lemma {:induction false} NoLineBreakInPrefixed(ks: seq<string>)
    requires forall i :: 0 <= i < |ks| ==> NoLineBreak(ks[i])
    ensures NoLineBreak(Query.Prefixed(ks))
  {
    if |ks| > 0 {
      NoLineBreakInPrefixed(ks[1..]);
      assert Query.Prefixed(ks) == "%20" + ks[0] + Query.Prefixed(ks[1..]);
    }
  }

  /** Keywords without line boundaries give a search string without any. */
  lemma SearchStringNoLineBreak(keywords: seq<string>)
    requires forall i :: 0 <= i < |keywords| ==> NoLineBreak(keywords[i])
    ensures NoLineBreak(Query.SearchString(keywords))
  {
    if |keywords| > 0 {
      NoLineBreakInPrefixed(keywords);
    } else {
      var d := Query.DefaultSearch;
      forall c | c in d ensures !IsLineBreak(c) {
        var k :| 0 <= k < |d| && d[k] == c;
      }
    }
  }

  /** Keywords without line boundaries give a one-line subject, whatever the day. */
  lemma SubjectOneLine(keywords: seq<string>, today: CalendarDate)
    requires Formattable(today)
    requires forall i :: 0 <= i < |keywords| ==> NoLineBreak(keywords[i])
    ensures OneLine(Subject(FileName(Query.SearchString(keywords), FormatDate(today))))
  {
    var s := Query.SearchString(keywords);
    SearchStringNoLineBreak(keywords);
    SubjectOfDatedFileName(s, today);
    var subject := "Feed-" + FileStem(s);
    assert NoLineBreak(FileStem(s));
    assert forall c :: c in "Feed-" ==> c == 'F' || c == 'e' || c == 'd' || c == '-';
    NoLineBreakOneLine(subject);
  }
}

=== FILE: paging.dfy ===
/**
 Pagination by scrolling: `get_depth` supplies the depth, and `fetch_posts` runs
 `for i in range(1, depth)`, each pass pressing END on the page and then sleeping
 five seconds so that more posts load.
 */
module Paging {

  import opened Wrappers

  /** Depth used when `--depth` is unset or zero. */
  const DefaultDepth := 2

  /** Seconds slept after every END key press. */
  const SettleSeconds := 5

  /** What the scraper asks of the browser. */
  datatype Action = Navigate(url: string) | PressEnd | Settle(seconds: nat)

  /** `get_depth`: `depth or 2`, so both an unset depth and a depth of 0 fall back
      to 2 while every other integer, negative ones included, is kept. */
  function DepthOrDefault(depth: Option<int>): (d: int)
    ensures d != 0
    ensures depth.Some? && depth.value != 0 ==> d == depth.value
    ensures depth.None? || depth == Some(0) ==> d == DefaultDepth
  {
    match depth
    case Some(x) => if x != 0 then x else DefaultDepth
    case None => DefaultDepth
  }

  /** Python's `range(lo, hi)`: the integers from `lo` up to but excluding `hi`. */
  function Range(lo: int, hi: int): (r: seq<int>)
    ensures |r| == if lo < hi then hi - lo else 0
    ensures forall k :: 0 <= k < |r| ==> r[k] == lo + k
    decreases hi - lo
  {
    if lo < hi then [lo] + Range(lo + 1, hi) else []
  }

  /** Number of passes of the scroll loop: `len(range(1, get_depth()))`. */
  function ScrollCount(depth: Option<int>): (n: nat)
    ensures var d := DepthOrDefault(depth); n == if d > 1 then d - 1 else 0
  {
    |Range(1, DepthOrDefault(depth))|
  }

  /** The action at position `k` of the scroll loop's trace: END on even
      positions, the settle delay on odd ones. */
  function ScrollStep(k: nat): Action {
    if k % 2 == 0 then PressEnd else Settle(SettleSeconds)
  }

  /** The actions of `n` passes of the scroll loop. */
  function ScrollTrace(n: nat): seq<Action> {
    seq(2 * n, k requires 0 <= k < 2 * n => ScrollStep(k))
  }

  /** The scroll loop of `fetch_posts`: one END press and one five-second settle
      per element of `range(1, depth)`, in that order. */
  method Scroll(depth: Option<int>) returns (actions: seq<Action>)
    ensures actions == ScrollTrace(ScrollCount(depth))
  {
    var passes := Range(1, DepthOrDefault(depth));
    actions := [];
    var i := 0;
    while i < |passes|
      invariant 0 <= i <= |passes|
      invariant |actions| == 2 * i
      invariant forall k :: 0 <= k < |actions| ==> actions[k] == ScrollStep(k)
    {
      actions := actions + [PressEnd, Settle(SettleSeconds)];
      i := i + 1;
    }
  }

  /** Depth 1 scrolls zero times and depth 3 twice; the default depth scrolls once;
      a negative depth scrolls not at all. */
  lemma ScrollCountExamples()
    ensures ScrollCount(Some(1)) == 0
    ensures ScrollCount(Some(3)) == 2
    ensures ScrollCount(None) == 1 && ScrollCount(Some(0)) == 1
    ensures ScrollCount(Some(-4)) == 0
  {
  }
}

=== FILE: pipeline.dfy ===
/**
 The script's main flow with its inputs made explicit: the command-line options,
 today's date and the matched post elements of the loaded page are parameters;
 the browser, the file system and the mail server are replaced by the values the
 script would hand them.
 */
module Pipeline {

  import opened Wrappers
  import opened Query
  import opened Paging
  import opened Naming
  import opened Extract
  import opened Text

  /** The command-line options: `--keywords`, `--depth`, `--order`. */
  datatype Config = Config(keywords: seq<string>, depth: Option<int>, order: Option<string>)

  /** The browser actions of `fetch_posts` after the login: open the search URL,
      then run the scroll loop. */
  function BrowserActions(cfg: Config): (acts: seq<Action>)
    ensures |acts| == 1 + 2 * ScrollCount(cfg.depth)
    ensures acts[0] == Navigate(EndpointUrl(SearchString(cfg.keywords), cfg.order))
    ensures forall k :: 1 <= k < |acts| ==> acts[k] == ScrollStep(k - 1)
  {
    [Navigate(EndpointUrl(SearchString(cfg.keywords), cfg.order))] + ScrollTrace(ScrollCount(cfg.depth))
  }

  /** The message `sendViaEmail` sends. */
  datatype Mail = Mail(subject: string, body: string)

  /** How a run ends: the file is mailed; or the first `save_post` cannot create a
      file of that name (a stem holding `/`, say, names a missing directory), and
      the exception ends the script before the browser is closed and before any
      mail; or the subject spans several lines, and the assignment
      `msg['Subject'] = ...` raises `ValueError` before the file is opened; or no
      post was saved, so the file was never created and opening it for the e-mail
      fails. */
  datatype Outcome =
    | Mailed(fileName: string, mail: Mail)
    | WriteFailed(fileName: string)
    | SubjectRejected(fileName: string)
    | FileMissing(fileName: string)

  /** The file's contents after the run: `checkFileExists` removes any earlier
      file, and only `save_post` creates it, so it exists exactly when a post was
      saved. */
  function SavedFile(page: seq<PostElement>): (f: Option<string>)
    ensures f.None? <==> |page| == 0
    ensures f.Some? ==> |f.value| >= 62 * |page|
  {
    if |page| == 0 then None
    else
      BlocksLength(Blocks(page));
      Some(Concat(Blocks(page)))
  }

  /** Post `i`'s block, `Blocks(page)[i] == Block(ExtractPost(page[i]))`, stands in
      the file unchanged, at the offset just past the blocks of the posts before it. */
  lemma {:induction false} SavedFileHoldsPost(page: seq<PostElement>, i: nat)
    requires i < |page|
    ensures SavedFile(page).Some?
    ensures Holds(SavedFile(page).value, Offset(Blocks(page), i), Blocks(page)[i])
  {
    BlockAtOffset(Blocks(page), i);
  }

  /** Each `save_post` call opens the file in append mode: saving one more post
      leaves the text already written in place and adds that post's block after it. */
  lemma SavedFileAppend(page: seq<PostElement>, p: PostElement)
    requires |page| > 0
    ensures SavedFile(page + [p]) == Some(SavedFile(page).value + Block(ExtractPost(p)))
  {
    var b := Block(ExtractPost(p));
    FileOfConcatenatedPosts(page, [p]);
    assert Blocks([p]) == [b];
    assert Concat([b]) == b by {
      assert [b][1..] == [];
      assert b + "" == b;
    }
  }

  /** Every block is at least a rule and a newline long. */
  lemma {:induction false} BlocksLength(bs: seq<string>)
    requires forall i :: 0 <= i < |bs| ==> |bs[i]| >= 62
    ensures |Concat(bs)| >= 62 * |bs|
  {
    if |bs| > 0 {
      BlocksLength(bs[1..]);
    }
  }

  /** One run of the script on a given day against a page holding the given post
      elements. Whether the file system lets `open(file_name, "a+")` create a file
      of that name is the parameter `creatable`. The e-mail library refuses a
      header value that `splitlines()` cuts into more than one line. */
  function Run(cfg: Config, today: CalendarDate, page: seq<PostElement>, creatable: bool): (o: Outcome)
    requires Formattable(today)
    ensures o.fileName == FileName(SearchString(cfg.keywords), FormatDate(today))
    ensures o.WriteFailed? <==> |page| > 0 && !creatable
    ensures o.SubjectRejected? <==> (|page| == 0 || creatable) && !OneLine(Subject(o.fileName))
    ensures o.FileMissing? <==> |page| == 0 && OneLine(Subject(o.fileName))
    ensures o.Mailed? <==> |page| > 0 && creatable && OneLine(Subject(o.fileName))
    ensures o.Mailed? ==> o.mail.subject == "Feed-" + FileStem(SearchString(cfg.keywords))
    ensures o.Mailed? ==> SavedFile(page).Some? && o.mail.body == UniversalNewlines(SavedFile(page).value)
    ensures o.Mailed? ==> '\r' !in o.mail.body
  {
    var fileName := FileName(SearchString(cfg.keywords), FormatDate(today));
    var subject := Subject(fileName);
    SubjectOfDatedFileName(SearchString(cfg.keywords), today);
    SplitLinesOneLine(subject);
    if |page| > 0 && !creatable then WriteFailed(fileName)
    else if |SplitLines(subject)| > 1 then SubjectRejected(fileName)
    else
      match SavedFile(page)
      case None => FileMissing(fileName)
      case Some(text) => Mailed(fileName, Mail(subject, UniversalNewlines(text)))
  }

  /** Keywords without line boundaries never have their subject refused: the run
      mails exactly when a post was saved and the file could be created. */
  lemma PlainKeywordsMailed(cfg: Config, today: CalendarDate, page: seq<PostElement>, creatable: bool)
    requires Formattable(today)
    requires forall i :: 0 <= i < |cfg.keywords| ==> NoLineBreak(cfg.keywords[i])
    ensures Run(cfg, today, page, creatable).Mailed? <==> |page| > 0 && creatable
  {
    SubjectOneLine(cfg.keywords, today);
  }

  /** The mail body is the file's text exactly when the file holds no `\r`. */
  lemma MailedBodyIsFile(cfg: Config, today: CalendarDate, page: seq<PostElement>)
    requires Formattable(today)
    ensures Run(cfg, today, page, true).Mailed? ==>
      (Run(cfg, today, page, true).mail.body == SavedFile(page).value <==> '\r' !in SavedFile(page).value)
  {
  }

  /** Some field of the record holds a carriage return. */
  predicate HasCarriageReturn(rec: PostRecord) {
    || '\r' in Render(rec.authorName)
    || '\r' in Render(rec.authorDescription)
    || '\r' in Render(rec.postAge)
    || '\r' in Render(rec.bodyText)
  }

  /** A carriage return in a field is written to the post's block. */
  lemma CarriageReturnInBlock(rec: PostRecord)
    requires HasCarriageReturn(rec)
    ensures '\r' in Block(rec)
  {
    assert '\r' in FormatRecord(rec);
  }

  /** A record without carriage returns in its fields writes a block without any:
      the rule and the f-string's own characters hold none. */
  lemma NoCarriageReturnInBlock(rec: PostRecord)
    requires !HasCarriageReturn(rec)
    ensures '\r' !in Block(rec)
  {
    SeparatorHasNoCarriageReturn();
  }

  /** When no saved field holds a carriage return, neither does the file, and the
      mail body is the file exactly as saved. */
  lemma PlainPostsMailedAsSaved(cfg: Config, today: CalendarDate, page: seq<PostElement>)
    requires Formattable(today) && |page| > 0
    requires forall i :: 0 <= i < |page| ==> !HasCarriageReturn(ExtractPost(page[i]))
    ensures '\r' !in SavedFile(page).value
    ensures Run(cfg, today, page, true).Mailed? ==>
      Run(cfg, today, page, true).mail.body == SavedFile(page).value
  {
    var bs := Blocks(page);
    forall i | 0 <= i < |bs| ensures '\r' !in bs[i] {
      NoCarriageReturnInBlock(ExtractPost(page[i]));
    }
    ConcatWithout(bs, '\r');
  }

  /** What a text holds at some position, it holds. */
  lemma HoldsContains(text: string, o: nat, b: string, c: char)
    requires Holds(text, o, b) && c in b
    ensures c in text
  {
    var j :| 0 <= j < |b| && b[j] == c;
    assert text[o..o + |b|][j] == text[o + j];
  }

  /** A post with a carriage return in any field is not mailed as it was saved. */
  lemma CarriageReturnInMail(cfg: Config, today: CalendarDate, page: seq<PostElement>, i: nat)
    requires Formattable(today) && i < |page|
    requires HasCarriageReturn(ExtractPost(page[i]))
    ensures Run(cfg, today, page, true).Mailed? ==>
      Run(cfg, today, page, true).mail.body != SavedFile(page).value
  {
    CarriageReturnInBlock(ExtractPost(page[i]));
    SavedFileHoldsPost(page, i);
    HoldsContains(SavedFile(page).value, Offset(Blocks(page), i), Blocks(page)[i], '\r');
  }

  // The example lemmas take their literal inputs as parameters fixed by `requires`,
  // so that the solver unfolds the definitions on them only inside these lemmas.

  /** Example: a post whose text is `a\rb` and which lacks the other three fields is
      saved with the `\r` and mailed with `a\nb` in its place. */
  lemma CarriageReturnExample(cfg: Config, today: CalendarDate, page: seq<PostElement>)
    requires Formattable(today)
    requires page == [PostElement(None, None, None, Some("a\rb"))]
    ensures SavedFile(page) == Some(PostSeparator + "None, None, None\n\n" + "a\rb\n")
    ensures Run(cfg, today, page, true).Mailed? ==>
      Run(cfg, today, page, true).mail.body == PostSeparator + "None, None, None\n\n" + "a\nb\n"
  {
    var head := PostSeparator + "None, None, None\n\n";
    ExampleSavedFile(page);
    NoCarriageReturnInHead(head);
    UniversalNewlinesAppend(head, "a\rb\n");
    ExampleRead();
  }

  lemma ExampleRead()
    ensures UniversalNewlines("a\rb\n") == "a\nb\n"
  {
    assert UniversalNewlines("b\n") == "b\n";
    assert UniversalNewlines("\rb\n") == "\n" + UniversalNewlines("b\n");
    assert UniversalNewlines("a\rb\n") == "a" + UniversalNewlines("\rb\n");
  }

  lemma NoCarriageReturnInHead(head: string)
    requires head == PostSeparator + "None, None, None\n\n"
    ensures '\r' !in head && head[|head| - 1] != '\r'
  {
    SeparatorHasNoCarriageReturn();
  }

  lemma ExampleRecord(rec: PostRecord)
    requires rec == PostRecord(None, None, None, Some("a\rb"))
    ensures Block(rec) == PostSeparator + "None, None, None\n\n" + "a\rb\n"
  {
    assert FormatRecord(rec) == "None, None, None\n\n" + "a\rb";
  }

  lemma ExampleSavedFile(page: seq<PostElement>)
    requires page == [PostElement(None, None, None, Some("a\rb"))]
    ensures SavedFile(page) == Some(PostSeparator + "None, None, None\n\n" + "a\rb\n")
  {
    var rec := ExtractPost(page[0]);
    assert rec == PostRecord(None, None, None, Some("a\rb")) by {
      StripFixedIff("a\rb");
    }
    ExampleRecord(rec);
    var b := Block(rec);
    assert Blocks(page) == [b];
    assert Concat([b]) == b by {
      assert [b][1..] == [];
      assert b + "" == b;
    }
  }

  /** Example: the single keyword `a\nb` names the subject `Feed-a\nb`, two lines
      to `splitlines`, so a run that saved its posts ends when the subject is set. */
  lemma MultiLineSubjectExample(cfg: Config, today: CalendarDate, page: seq<PostElement>)
    requires Formattable(today) && |page| > 0
    requires cfg.keywords == ["a\nb"]
    ensures Subject(FileName(SearchString(cfg.keywords), FormatDate(today))) == "Feed-a\nb"
    ensures Run(cfg, today, page, true).SubjectRejected?
  {
    var keywords := cfg.keywords;
    assert ' ' !in keywords[0] && '%' !in keywords[0];
    StemOfKeywords(keywords);
    SubjectOfDatedFileName(SearchString(keywords), today);
    var s := "Feed-a\nb";
    assert IsLineBreak(s[6]) && 6 + BreakLength(s, 6) < |s|;
  }

  /** Example: keywords `Fixed` and `Income`, depth 2, relevance order:
      the browser opens the relevance URL quoting `Fixed%20Income` and scrolls
      once. */
  lemma FixedIncomeActions(cfg: Config)
    requires cfg == Config(["Fixed", "Income"], Some(2), None)
    ensures BrowserActions(cfg)
         == [Navigate(RelevantPrefix + "Fixed%20Income" + RelevantSuffix), PressEnd, Settle(5)]
  {
    ExampleSearchString(cfg.keywords);
    assert DropPrefix(SearchString(cfg.keywords), 3) == "Fixed%20Income";
    assert ScrollCount(cfg.depth) == 1;
    var t := ScrollTrace(1);
    assert |t| == 2 && t[0] == ScrollStep(0) && t[1] == ScrollStep(1);
  }

  /** The same keywords run on 10 October 2026 write `Feed-FixedIncome-10-10-2026.txt`
      and mail it under the subject `Feed-FixedIncome`. */
  lemma FixedIncomeFileName(keywords: seq<string>, today: CalendarDate)
    requires keywords == ["Fixed", "Income"] && today == CalendarDate(2026, 10, 10)
    ensures FileName(SearchString(keywords), FormatDate(today))
         == "Feed-" + "FixedIncome" + "-" + ("10" + "-" + "10" + "-" + "2026") + ".txt"
    ensures Subject(FileName(SearchString(keywords), FormatDate(today))) == "Feed-" + "FixedIncome"
  {
    ExampleStem(keywords);
    ExampleDate(today);
    SubjectOfFileName(SearchString(keywords), FormatDate(today));
  }

  lemma ExampleStem(keywords: seq<string>)
    requires keywords == ["Fixed", "Income"]
    ensures FileStem(SearchString(keywords)) == "FixedIncome"
  {
    ExampleKeywordsPlain(keywords);
    StemOfKeywords(keywords);
    ExampleJoin(keywords);
  }

  lemma ExampleKeywordsPlain(keywords: seq<string>)
    requires keywords == ["Fixed", "Income"]
    ensures forall i :: 0 <= i < |keywords| ==> ' ' !in keywords[i] && '%' !in keywords[i]
  {
    assert ' ' !in keywords[0] && '%' !in keywords[0];
    assert ' ' !in keywords[1] && '%' !in keywords[1];
  }

  lemma ExampleJoin(keywords: seq<string>)
    requires keywords == ["Fixed", "Income"]
    ensures Join(keywords, "") == "FixedIncome"
  {
    assert keywords[1..] == ["Income"];
  }

  lemma ExampleSearchString(keywords: seq<string>)
    requires keywords == ["Fixed", "Income"]
    ensures SearchString(keywords) == "%20Fixed%20Income"
  {
    assert keywords[1..] == ["Income"];
    assert keywords[1..][1..] == [];
    assert Prefixed(keywords[1..]) == "%20Income";
  }

  lemma ExampleDate(today: CalendarDate)
    requires today == CalendarDate(2026, 10, 10)
    ensures FormatDate(today) == "10" + "-" + "10" + "-" + "2026"
  {
    assert Digits(0, 0) == "";
    assert Digits(1, 1) == Digits(0, 0) + ['1'];
    assert Digits(10, 2) == Digits(1, 1) + ['0'];
    assert Digits(2, 1) == Digits(0, 0) + ['2'];
    assert Digits(20, 2) == Digits(2, 1) + ['0'];
    assert Digits(202, 3) == Digits(20, 2) + ['2'];
    assert Digits(2026, 4) == Digits(202, 3) + ['6'];
  }
}

=== FILE: query.dfy ===
/**
 The query builder: `get_search_str` turns the keyword list into a URL-embeddable
 search string, and `fetch_posts` drops its first three characters and embeds the
 rest in one of two search-endpoint templates, chosen by the `--order` option.
 */
module Query {

  import opened Wrappers
  import opened Text

  /** The separator put in front of every keyword: a URL-encoded space. */
  const Separator := "%20"

  /** What `get_search_str` returns when there are no keywords. */
  const DefaultSearch := "Fixed Income Automation"

  const SearchBase := "https://www.linkedin.com/search/results/content/?"
  const RecentPrefix := SearchBase + "facetSortBy=date_posted&keywords=\""
  const RecentSuffix := "\"&origin=SORT_RESULTS"
  const RelevantPrefix := SearchBase + "keywords=\""
  const RelevantSuffix := "\"&origin=GLOBAL_SEARCH_HEADER"

  /** Sum of the keywords' lengths. */
  function TotalLength(ks: seq<string>): nat {
    if |ks| == 0 then 0 else |ks[0]| + TotalLength(ks[1..])
  }

  /** The keywords joined with `sep` between neighbours and nothing at either end. */
  function Join(ks: seq<string>, sep: string): string {
    if |ks| == 0 then ""
    else if |ks| == 1 then ks[0]
    else ks[0] + sep + Join(ks[1..], sep)
  }

  /** Every keyword with `%20` in front of it, concatenated in order. */
  function Prefixed(ks: seq<string>): (r: string)
    ensures |r| == TotalLength(ks) + |Separator| * |ks|
  {
    if |ks| == 0 then "" else Separator + ks[0] + Prefixed(ks[1..])
  }

  /** The search string of `get_search_str` for the given keyword list. */
  function SearchString(keywords: seq<string>): (r: string)
    ensures |keywords| == 0 ==> r == DefaultSearch
    ensures |keywords| > 0 ==> r == Separator + Join(keywords, Separator)
  {
    if |keywords| > 0 then
      PrefixedIsJoin(keywords);
      Prefixed(keywords)
    else DefaultSearch
  }

  /** Appending one keyword appends `%20` and that keyword: `Prefixed` is the
      left-to-right accumulation the source's loop performs. */
  lemma {:induction false} PrefixedSnoc(ks: seq<string>, k: string)
    ensures Prefixed(ks + [k]) == Prefixed(ks) + Separator + k
  {
    if |ks| == 0 {
      assert Prefixed([k]) == Separator + k + Prefixed([]);
    } else {
      assert (ks + [k])[1..] == ks[1..] + [k];
      PrefixedSnoc(ks[1..], k);
    }
  }

  /** The prefixed form is the joined form with one extra leading separator. */
  lemma {:induction false} PrefixedIsJoin(ks: seq<string>)
    requires |ks| > 0
    ensures Prefixed(ks) == Separator + Join(ks, Separator)
  {
    if |ks| == 1 {
      assert Prefixed(ks[1..]) == "";
    } else {
      PrefixedIsJoin(ks[1..]);
    }
  }

  /** `get_search_str`: the loop appends `"%20" + keyword` for every keyword; with
      no keywords the fixed default comes back instead. */
  method BuildSearchString(keywords: seq<string>) returns (r: string)
    ensures |keywords| == 0 ==> r == DefaultSearch
    ensures |keywords| > 0 ==> r == Separator + Join(keywords, Separator)
    ensures r == SearchString(keywords)
  {
    if |keywords| > 0 {
      var acc := "";
      var i := 0;
      while i < |keywords|
        invariant 0 <= i <= |keywords|
        invariant acc == Prefixed(keywords[..i])
      {
        PrefixedSnoc(keywords[..i], keywords[i]);
        assert keywords[..i + 1] == keywords[..i] + [keywords[i]];
        acc := acc + Separator + keywords[i];
        i := i + 1;
      }
      assert keywords[..i] == keywords;
      PrefixedIsJoin(keywords);
      return acc;
    }
    return DefaultSearch;
  }

  /** For a non-empty keyword list, the text that goes into the URL
      (`searchString[3:]`) is the keywords joined by `%20`, with no leading
      separator. */
  lemma EmbeddedKeywords(keywords: seq<string>)
    requires |keywords| > 0
    ensures DropPrefix(SearchString(keywords), 3) == Join(keywords, Separator)
  {
    PrefixedIsJoin(keywords);
  }

  /** The fallback string carries no leading separator, yet its first three
      characters are dropped all the same. */
  lemma DefaultEmbeddedText()
    ensures DropPrefix(SearchString([]), 3) == "ed Income Automation"
  {
    assert DefaultSearch[3..] == "ed Income Automation";
  }

  /** The two URL templates of `fetch_posts`. */
  datatype SortMode = Relevance | Recent

  /** `order = args.order or []` followed by `order == 'date'`: only the exact
      text `date` selects the recency template; an unset option, an empty one or
      any other text selects relevance. */
  function SortModeOf(order: Option<string>): (m: SortMode)
    ensures m == Recent <==> order == Some("date")
  {
    match order
    case Some(o) => if o == "date" then Recent else Relevance
    case None => Relevance
  }

  /** The URL `fetch_posts` navigates to for a search string and `--order` value. */
  function EndpointUrl(searchString: string, order: Option<string>): (url: string)
    ensures |SearchBase| <= |url| && url[..|SearchBase|] == SearchBase
  {
    var q := DropPrefix(searchString, 3);
    match SortModeOf(order)
    case Recent => RecentPrefix + q + RecentSuffix
    case Relevance => RelevantPrefix + q + RelevantSuffix
  }

  /** An endpoint URL read back: which template it uses and the keyword text
      quoted inside it. */
  datatype Endpoint = Endpoint(mode: SortMode, keywords: string)

  /** `s` starts with `prefix` and ends with `suffix`, the two not overlapping. */
  predicate Framed(s: string, prefix: string, suffix: string) {
    |prefix| + |suffix| <= |s| && s[..|prefix|] == prefix && s[|s| - |suffix|..] == suffix
  }

  /** Reads a URL back into its template and quoted keyword text; `None` for a
      URL that fits neither template. */
  function ParseEndpoint(url: string): Option<Endpoint>
  {
    if Framed(url, RecentPrefix, RecentSuffix) then
      Some(Endpoint(Recent, url[|RecentPrefix|..|url| - |RecentSuffix|]))
    else if Framed(url, RelevantPrefix, RelevantSuffix) then
      Some(Endpoint(Relevance, url[|RelevantPrefix|..|url| - |RelevantSuffix|]))
    else
      None
  }

  /** Framing `q` between a prefix and a suffix and reading it back recovers `q`. */
  lemma UnframeFrame(prefix: string, q: string, suffix: string)
    ensures Framed(prefix + q + suffix, prefix, suffix)
    ensures (prefix + q + suffix)[|prefix|..|prefix + q + suffix| - |suffix|] == q
  {
    var s := prefix + q + suffix;
    assert s[..|prefix|] == prefix;
    assert s[|s| - |suffix|..] == suffix;
  }

  /** The template is chosen by `order` alone, and both templates quote the same
      keyword text, `searchString[3:]`, verbatim. */
  lemma EndpointRoundTrip(searchString: string, order: Option<string>)
    ensures ParseEndpoint(EndpointUrl(searchString, order))
         == Some(Endpoint(SortModeOf(order), DropPrefix(searchString, 3)))
  {
    var q := DropPrefix(searchString, 3);
    var url := EndpointUrl(searchString, order);
    match SortModeOf(order)
    case Recent =>
      UnframeFrame(RecentPrefix, q, RecentSuffix);
    case Relevance =>
      UnframeFrame(RelevantPrefix, q, RelevantSuffix);
      assert url[|SearchBase|] == 'k';
      assert RecentPrefix[|SearchBase|] == 'f';
      assert url[..|RecentPrefix|] != RecentPrefix by {
        assert url[..|RecentPrefix|][|SearchBase|] == 'k';
      }
  }

  /** For a non-empty keyword list, the URL quotes the keywords joined by `%20`,
      whichever template `order` picks. */
  lemma QueryUrl(keywords: seq<string>, order: Option<string>)
    requires |keywords| > 0
    ensures ParseEndpoint(EndpointUrl(SearchString(keywords), order))
         == Some(Endpoint(SortModeOf(order), Join(keywords, Separator)))
  {
    EndpointRoundTrip(SearchString(keywords), order);
    EmbeddedKeywords(keywords);
  }

  /** Two endpoint URLs are equal only if they use the same template and quote the
      same keyword text. */
  lemma EndpointUrlInjective(s1: string, o1: Option<string>, s2: string, o2: Option<string>)
    requires EndpointUrl(s1, o1) == EndpointUrl(s2, o2)
    ensures SortModeOf(o1) == SortModeOf(o2)
    ensures DropPrefix(s1, 3) == DropPrefix(s2, 3)
  {
    EndpointRoundTrip(s1, o1);
    EndpointRoundTrip(s2, o2);
  }
}

=== FILE: text.dfy ===
/**
 Python string primitives the scraper relies on: `str.strip()`, `str.replace(old, new)`,
 the slices `s[n:]` and `s[:-n]`, the newline translation of a text-mode read,
 `str.splitlines()`, and a first-occurrence search used to read formatted records back.
 */
module Text {

  import opened Wrappers

  /** Python's `str.isspace()` for one character: the code points of bidirectional
      class WS, B or S, and of category Zs. */
  predicate IsSpace(c: char) {
    var n := c as int;
    || n == 0x20
    || 0x09 <= n <= 0x0D
    || 0x1C <= n <= 0x1F
    || n == 0x85
    || n == 0xA0
    || n == 0x1680
    || 0x2000 <= n <= 0x200A
    || n == 0x2028
    || n == 0x2029
    || n == 0x202F
    || n == 0x205F
    || n == 0x3000
  }

  predicate AllSpace(s: string) {
    forall i :: 0 <= i < |s| ==> IsSpace(s[i])
  }

  /** A string with no whitespace at either end. */
  predicate Stripped(s: string) {
    |s| == 0 || (!IsSpace(s[0]) && !IsSpace(s[|s| - 1]))
  }

  /** `r` is what remains of `s` once all leading and trailing whitespace is gone:
      a contiguous piece of `s`, flanked by whitespace only, itself free of
      whitespace at both ends. */
  ghost predicate IsStripOf(r: string, s: string) {
    && Stripped(r)
    && exists i, j :: 0 <= i <= j <= |s| && r == s[i..j] && AllSpace(s[..i]) && AllSpace(s[j..])
  }

  /** Number of whitespace characters at the start of `s`. */
  function LeadingSpace(s: string): (n: nat)
    ensures n <= |s|
    ensures forall k :: 0 <= k < n ==> IsSpace(s[k])
    ensures n < |s| ==> !IsSpace(s[n])
  {
    if |s| == 0 || !IsSpace(s[0]) then 0 else 1 + LeadingSpace(s[1..])
  }

  /** Number of whitespace characters at the end of `s`. */
  function TrailingSpace(s: string): (n: nat)
    ensures n <= |s|
    ensures forall k :: |s| - n <= k < |s| ==> IsSpace(s[k])
    ensures n < |s| ==> !IsSpace(s[|s| - 1 - n])
  {
    if |s| == 0 || !IsSpace(s[|s| - 1]) then 0 else 1 + TrailingSpace(s[..|s| - 1])
  }

  /** Python's `s.strip()` with no argument. */
  function Strip(s: string): (r: string)
    ensures IsStripOf(r, s)
  {
    var i := LeadingSpace(s);
    var n := TrailingSpace(s[i..]);
    var j := |s| - n;
    assert AllSpace(s[..i]);
    assert AllSpace(s[j..]) by {
      forall k | 0 <= k < |s| - j
        ensures IsSpace(s[j..][k])
      {
        assert s[j..][k] == s[i..][|s[i..]| - n + k];
      }
    }
    assert Stripped(s[i..j]) by {
      if i < j {
        assert s[i..j][|s[i..j]| - 1] == s[i..][|s[i..]| - 1 - n];
      }
    }
    s[i..j]
  }

  /** The leading-whitespace count is the only `i` with whitespace before it and
      none at it. */
  lemma LeadingSpaceIs(s: string, i: nat)
    requires i <= |s|
    requires forall k :: 0 <= k < i ==> IsSpace(s[k])
    requires i < |s| ==> !IsSpace(s[i])
    ensures LeadingSpace(s) == i
  {
    var m := LeadingSpace(s);
    assert m <= i;
    assert i <= m;
  }

  /** The trailing-whitespace count is the only `n` with whitespace after `|s| - n`
      and none just before it. */
  lemma TrailingSpaceIs(s: string, n: nat)
    requires n <= |s|
    requires forall k :: |s| - n <= k < |s| ==> IsSpace(s[k])
    requires n < |s| ==> !IsSpace(s[|s| - 1 - n])
    ensures TrailingSpace(s) == n
  {
    var m := TrailingSpace(s);
    assert m <= n;
    assert n <= m;
  }

  /** Stripping `s` keeps exactly `s[i..j]` whenever everything outside `i..j` is
      whitespace and `s[i..j]` has none at either end. */
  lemma StripBetween(s: string, i: nat, j: nat)
    requires i <= j <= |s|
    requires AllSpace(s[..i]) && AllSpace(s[j..]) && Stripped(s[i..j])
    ensures Strip(s) == s[i..j]
  {
    if i == j {
      // s is whitespace throughout, so nothing survives the strip
      forall k | 0 <= k < |s| ensures IsSpace(s[k]) {
        if k < i { assert s[..i][k] == s[k]; } else { assert s[j..][k - j] == s[k]; }
      }
      StripAllSpace(s);
    } else {
      forall k | 0 <= k < i ensures IsSpace(s[k]) { assert s[..i][k] == s[k]; }
      assert s[i] == s[i..j][0];
      LeadingSpaceIs(s, i);
      var t := s[i..];
      var n := |s| - j;
      forall k | |t| - n <= k < |t| ensures IsSpace(t[k]) {
        assert t[k] == s[j..][k - (|t| - n)];
      }
      assert t[|t| - 1 - n] == s[i..j][j - i - 1];
      TrailingSpaceIs(t, n);
    }
  }

  /** A string of whitespace only strips to the empty string. */
  lemma StripAllSpace(s: string)
    requires AllSpace(s)
    ensures Strip(s) == ""
  {
    LeadingSpaceIs(s, |s|);
  }

  /** Any decomposition of `s` into whitespace, a stripped middle and whitespace
      has that middle equal to `Strip(s)`: the contract of `Strip` pins it
      down completely. */
  lemma StripUnique(r: string, s: string)
    requires IsStripOf(r, s)
    ensures Strip(s) == r
  {
    var i, j :| 0 <= i <= j <= |s| && r == s[i..j] && AllSpace(s[..i]) && AllSpace(s[j..]);
    StripBetween(s, i, j);
  }

  /** Stripping twice is stripping once. */
  lemma StripIdempotent(s: string)
    ensures Strip(Strip(s)) == Strip(s)
  {
    var r := Strip(s);
    assert r[0..|r|] == r;
    assert IsStripOf(r, r);
    StripUnique(r, r);
  }

  /** `strip` leaves a string unchanged exactly when it has no whitespace at either end. */
  lemma StripFixedIff(s: string)
    ensures Strip(s) == s <==> Stripped(s)
  {
    if Stripped(s) {
      assert s[0..|s|] == s;
      assert IsStripOf(s, s);
      StripUnique(s, s);
    }
  }

  /** Python's `s.replace(pat, rep)`: occurrences are found left to right, never
      overlapping, and each one found is replaced by `rep`; the replacement text is
      never searched again. */
  function Replace(s: string, pat: string, rep: string): (r: string)
    requires |pat| > 0
    ensures |rep| <= |pat| ==> |r| <= |s|
    ensures forall c :: c in r ==> c in s || c in rep
    ensures |pat| == 1 && pat[0] !in rep ==> pat[0] !in r
    ensures (forall k :: !OccursAt(s, pat, k)) ==> r == s
    decreases |s|
  {
    if |s| < |pat| then
      assert |pat| == 1 ==> |s| == 0;
      s
    else if s[..|pat|] == pat then
      var r := Replace(s[|pat|..], pat, rep);
      assert forall c :: c in s[|pat|..] ==> c in s;
      assert OccursAt(s, pat, 0) by { assert s[0..|pat|] == s[..|pat|]; }
      rep + r
    else
      var r := Replace(s[1..], pat, rep);
      OccursInTail(s, pat);
      assert s == [s[0]] + s[1..];
      assert forall c :: c in s[1..] ==> c in s;
      assert |pat| == 1 ==> s[0] != pat[0] by {
        if |pat| == 1 { assert s[..1] == [s[0]]; }
      }
      [s[0]] + r
  }

  /** Python's `s.replace(pat, "")`: every occurrence found is deleted. */
  function RemoveAll(s: string, pat: string): (r: string)
    requires |pat| > 0
    ensures |r| <= |s|
    ensures forall c :: c in r ==> c in s
    ensures |pat| == 1 ==> pat[0] !in r
    ensures (forall k :: !OccursAt(s, pat, k)) ==> r == s
  {
    Replace(s, pat, "")
  }

  /** Replacing a one-character pattern, one character at a time. */
  lemma ReplaceCons(c: char, x: string, p: char, rep: string)
    ensures Replace([c] + x, [p], rep) == (if c == p then rep else [c]) + Replace(x, [p], rep)
  {
    var s := [c] + x;
    assert s[..1] == [c];
    assert s[1..] == x;
  }

  /** `s` with every `c` dropped and everything else kept in order. */
  function Without(s: string, c: char): (r: string)
    ensures forall x :: x in r <==> x in s && x != c
  {
    if |s| == 0 then ""
    else
      assert forall x :: x in s <==> x == s[0] || x in s[1..];
      if s[0] == c then Without(s[1..], c) else [s[0]] + Without(s[1..], c)
  }

  /** Deleting a one-character pattern is filtering that character out. */
  lemma {:induction false} RemoveAllSingle(s: string, c: char)
    ensures RemoveAll(s, [c]) == Without(s, c)
    decreases |s|
  {
    if |s| > 0 {
      assert s[..1] == [s[0]];
      assert s[1..] == s[|[c]|..];
      RemoveAllSingle(s[1..], c);
    }
  }

  /** Text that cannot start an occurrence passes through `replace` untouched. */
  lemma {:induction false} RemoveAllKeepsFree(k: string, t: string, pat: string)
    requires |pat| > 0
    requires pat[0] !in k
    ensures RemoveAll(k + t, pat) == k + RemoveAll(t, pat)
    decreases |k|
  {
    if |k| > 0 {
      var s := k + t;
      if |s| < |pat| {
        assert RemoveAll(t, pat) == t;
      } else {
        assert s[..|pat|] != pat by { assert s[..|pat|][0] == k[0]; }
        assert s[1..] == k[1..] + t;
        RemoveAllKeepsFree(k[1..], t, pat);
        assert k == [k[0]] + k[1..];
      }
    } else {
      assert k + t == t;
    }
  }

  /** An occurrence at the very start is deleted and scanning resumes after it. */
  lemma RemoveAllDropsLeading(pat: string, t: string)
    requires |pat| > 0
    ensures RemoveAll(pat + t, pat) == RemoveAll(t, pat)
  {
    assert (pat + t)[..|pat|] == pat;
    assert (pat + t)[|pat|..] == t;
  }

  /** What a text-mode `read()` returns for file contents `s` (universal newlines):
      every `\r\n` and every lone `\r` becomes `\n`. */
  function UniversalNewlines(s: string): (r: string)
    ensures '\r' !in r
    ensures |r| <= |s|
    ensures ('\r' !in s) ==> r == s
    decreases |s|
  {
    if |s| == 0 then ""
    else if s[0] == '\r' then
      if |s| > 1 && s[1] == '\n' then "\n" + UniversalNewlines(s[2..])
      else "\n" + UniversalNewlines(s[1..])
    else
      assert '\r' !in s ==> '\r' !in s[1..];
      assert s == [s[0]] + s[1..];
      [s[0]] + UniversalNewlines(s[1..])
  }

  /** The text-mode read is the two replacements `s.replace("\r\n", "\n")` and then
      `.replace("\r", "\n")`. */
  lemma {:induction false} UniversalNewlinesIsReplace(s: string)
    ensures UniversalNewlines(s) == Replace(Replace(s, "\r\n", "\n"), "\r", "\n")
    decreases |s|
  {
    if |s| > 0 {
      var t := s[1..];
      assert s == [s[0]] + t;
      if s[0] == '\r' && |s| > 1 && s[1] == '\n' {
        assert s[..2] == "\r\n";
        UniversalNewlinesIsReplace(s[2..]);
        ReplaceCons('\n', Replace(s[2..], "\r\n", "\n"), '\r', "\n");
      } else {
        if |s| == 1 {
          assert Replace(s, "\r\n", "\n") == s;
          assert Replace(t, "\r\n", "\n") == "";
        } else {
          assert s[..2] != "\r\n" by { assert s[..2][0] == s[0] && s[..2][1] == s[1]; }
        }
        assert Replace(s, "\r\n", "\n") == [s[0]] + Replace(t, "\r\n", "\n");
        UniversalNewlinesIsReplace(t);
        ReplaceCons(s[0], Replace(t, "\r\n", "\n"), '\r', "\n");
      }
    }
  }

  /** Reading two pieces of a file separately gives the same text as reading them
      together, as long as the first does not end inside a `\r\n`. */
  lemma {:induction false} UniversalNewlinesAppend(a: string, b: string)
    requires |a| == 0 || a[|a| - 1] != '\r'
    ensures UniversalNewlines(a + b) == UniversalNewlines(a) + UniversalNewlines(b)
    decreases |a|
  {
    if |a| == 0 {
      assert a + b == b;
    } else if a[0] != '\r' {
      var s := a + b;
      assert s[0] == a[0] && s[1..] == a[1..] + b;
      UniversalNewlinesAppend(a[1..], b);
    } else {
      var s := a + b;
      assert |a| > 1;
      assert s[0] == a[0] && s[1] == a[1];
      var n := if a[1] == '\n' then 2 else 1;
      assert s[n..] == a[n..] + b;
      UniversalNewlinesAppend(a[n..], b);
    }
  }

  /** The line boundaries of Python's `str.splitlines()`: `\n`, `\r`, `\v`, `\f`,
      the separators `\x1c` to `\x1e`, `\x85`, and the Unicode line and paragraph
      separators. */
  predicate IsLineBreak(c: char) {
    var n := c as int;
    || 0x0A <= n <= 0x0D
    || 0x1C <= n <= 0x1E
    || n == 0x85
    || n == 0x2028 || n == 0x2029
  }

  /** No character of `s` is a line boundary. */
  predicate NoLineBreak(s: string) {
    forall c :: c in s ==> !IsLineBreak(c)
  }

  /** How many characters the boundary at `k` takes: two for `\r\n`, one otherwise. */
  function BreakLength(s: string, k: nat): (n: nat)
    requires k < |s| && IsLineBreak(s[k])
    ensures n == 1 || n == 2
    ensures k + n <= |s|
  {
    if s[k] == '\r' && k + 1 < |s| && s[k + 1] == '\n' then 2 else 1
  }

  /** The length of the first line of `s`: up to its first boundary, or all of it. */
  function LineLength(s: string): (n: nat)
    ensures n <= |s|
    ensures NoLineBreak(s[..n])
    ensures n < |s| ==> IsLineBreak(s[n])
  {
    if |s| == 0 || IsLineBreak(s[0]) then 0
    else
      var n := 1 + LineLength(s[1..]);
      assert forall k :: 1 <= k < n ==> s[..n][k] == s[1..][..n - 1][k - 1];
      n
  }

  /** `str.splitlines()`: the lines of `s` without their boundaries; a boundary at
      the very end opens no further line. */
  function SplitLines(s: string): (ls: seq<string>)
    ensures |s| > 0 <==> |ls| > 0
    ensures forall i :: 0 <= i < |ls| ==> NoLineBreak(ls[i])
    decreases |s|
  {
    if |s| == 0 then []
    else
      var n := LineLength(s);
      if n == |s| then [s]
      else [s[..n]] + SplitLines(s[n + BreakLength(s, n)..])
  }

  /** `s` is a single line to `splitlines`: every boundary in it ends the text. */
  predicate OneLine(s: string) {
    forall k :: 0 <= k < |s| && IsLineBreak(s[k]) ==> k + BreakLength(s, k) == |s|
  }

  /** `len(s.splitlines()) <= 1` holds exactly when every boundary in `s` ends it. */
  lemma SplitLinesOneLine(s: string)
    ensures |SplitLines(s)| <= 1 <==> OneLine(s)
  {
    if |s| > 0 {
      var n := LineLength(s);
      if n < |s| {
        var m := n + BreakLength(s, n);
        if m < |s| {
          assert |SplitLines(s[m..])| > 0;
        }
      } else {
        forall k | 0 <= k < |s| ensures !IsLineBreak(s[k]) {
          assert s[..n][k] == s[k];
        }
      }
    }
  }

  /** Text without boundaries is one line. */
  lemma NoLineBreakOneLine(s: string)
    requires NoLineBreak(s)
    ensures OneLine(s)
  {
    forall k | 0 <= k < |s| ensures !IsLineBreak(s[k]) {
      assert s[k] in s;
    }
  }

  /** Python's `c * n` for a one-character string `c`. */
  function Repeat(c: char, n: nat): (s: string)
    ensures |s| == n
    ensures forall k :: 0 <= k < n ==> s[k] == c
  {
    if n == 0 then "" else [c] + Repeat(c, n - 1)
  }

  /** Python's `s[n:]` for a non-negative `n`. */
  function DropPrefix(s: string, n: nat): (r: string)
    ensures n <= |s| ==> s == s[..n] + r
    ensures |s| <= n ==> r == ""
  {
    if n <= |s| then s[n..] else ""
  }

  /** Python's `s[:-n]` for a non-negative `n`; note that `s[:-0]` is `s[:0]`, the
      empty string. */
  function DropSuffix(s: string, n: nat): (r: string)
    ensures 0 < n <= |s| ==> s == r + s[|s| - n..]
    ensures n == 0 || |s| <= n ==> r == ""
  {
    if n == 0 || |s| < n then "" else s[..|s| - n]
  }

  /** `pat` occurs in `s` starting at index `k`. */
  predicate OccursAt(s: string, pat: string, k: int) {
    0 <= k && k + |pat| <= |s| && s[k..k + |pat|] == pat
  }

  /** The occurrences in `s[1..]` are those in `s` after its first character,
      moved one place to the left. */
  lemma OccursInTail(s: string, pat: string)
    requires |s| > 0
    ensures forall k :: 1 <= k ==> (OccursAt(s, pat, k) <==> OccursAt(s[1..], pat, k - 1))
    ensures forall k :: 0 <= k ==> (OccursAt(s[1..], pat, k) <==> OccursAt(s, pat, k + 1))
  {
    forall k | 1 <= k ensures OccursAt(s, pat, k) <==> OccursAt(s[1..], pat, k - 1) {
      if k + |pat| <= |s| {
        SliceOfTail(s, k, |pat|);
      }
    }
    forall k | 0 <= k ensures OccursAt(s[1..], pat, k) <==> OccursAt(s, pat, k + 1) {
      assert OccursAt(s, pat, k + 1) <==> OccursAt(s[1..], pat, k + 1 - 1);
    }
  }

  /** A window of `s[1..]` is the window of `s` one place further on. */
  lemma SliceOfTail(s: string, k: nat, len: nat)
    requires 1 <= k && k + len <= |s|
    ensures s[1..][k - 1..k - 1 + len] == s[k..k + len]
  {
    var a, b := s[1..][k - 1..k - 1 + len], s[k..k + len];
    assert |a| == |b|;
    forall x | 0 <= x < len ensures a[x] == b[x] {
      assert a[x] == s[1..][k - 1 + x] == s[k + x];
    }
  }

  /** Position of the first occurrence of `pat` in `s` (Python's `s.find(pat)`,
      with `None` for -1). */
  function FindFirst(s: string, pat: string): (r: Option<nat>)
    requires |pat| > 0
    ensures r.Some? ==> OccursAt(s, pat, r.value)
    ensures r.Some? ==> forall k :: 0 <= k < r.value ==> !OccursAt(s, pat, k)
    ensures r.None? ==> forall k :: !OccursAt(s, pat, k)
    decreases |s|
  {
    if |s| < |pat| then None
    else if s[..|pat|] == pat then Some(0)
    else
      var rest := FindFirst(s[1..], pat);
      OccursInTail(s, pat);
      assert !OccursAt(s, pat, 0) by { assert s[0..|pat|] == s[..|pat|]; }
      match rest
      case None => None
      case Some(i) => Some(i + 1)
  }

  /** When the first character of `pat` does not occur in `a`, the first
      occurrence of `pat` in `a + pat + b` is the one right after `a`. */
  lemma FindFirstAfterFree(a: string, pat: string, b: string)
    requires |pat| > 0
    requires pat[0] !in a
    ensures FindFirst(a + pat + b, pat) == Some(|a|)
  {
    var s := a + pat + b;
    assert s[|a|..|a| + |pat|] == pat;
    assert OccursAt(s, pat, |a|);
    assert forall k :: 0 <= k < |a| ==> !OccursAt(s, pat, k) by {
      forall k | 0 <= k < |a| ensures !OccursAt(s, pat, k) {
        if k + |pat| <= |s| {
          assert s[k..k + |pat|][0] == a[k];
        }
      }
    }
  }

  /** Python's `s.split(sep, 1)` when `sep` occurs; `None` when it does not. */
  function SplitFirst(s: string, sep: string): (r: Option<(string, string)>)
    requires |sep| > 0
    ensures r.Some? ==> s == r.value.0 + sep + r.value.1
    ensures r.Some? ==> forall k :: 0 <= k < |r.value.0| ==> !OccursAt(s, sep, k)
    ensures r.None? ==> forall k :: !OccursAt(s, sep, k)
  {
    match FindFirst(s, sep)
    case None => None
    case Some(i) =>
      assert s == s[..i] + s[i..i + |sep|] + s[i + |sep|..];
      Some((s[..i], s[i + |sep|..]))
  }

  /** Splitting `a + sep + b` at its first `sep` gives back `a` and `b` whenever the
      first character of `sep` does not occur in `a`. */
  lemma SplitFirstAfterFree(a: string, sep: string, b: string)
    requires |sep| > 0
    requires sep[0] !in a
    ensures SplitFirst(a + sep + b, sep) == Some((a, b))
  {
    FindFirstAfterFree(a, sep, b);
    var s := a + sep + b;
    assert s[..|a|] == a;
    assert s[|a| + |sep|..] == b;
  }
}

=== FILE: wrappers.dfy ===
/** The optional value the scraper passes around wherever Python uses `None`. */
module Wrappers {

  datatype Option<+T> = None | Some(value: T)
}
